=== FILE: README.md ===
# proposal-police: the response-to-action decision

proposal-police is a GitHub bot. When someone comments on an issue, or edits
a comment, it asks an OpenAI assistant to judge whether the comment is a
job proposal that follows the template. The assistant's reply, read from
the thread's messages, then decides what the bot does: nothing, post a new
comment, or edit the triggering comment.

This project models that decision together with everything it reads from
the webhook payload. The repository wires the decision twice, and the two
wirings differ, so they are modelled side by side and not merged:

- `EventHandlers` models `src/eventHandlers.ts`. Both handlers run only on an
  open issue labelled `Help Wanted` with the assistant id configured. In
  both, an empty reply, `NO_ACTION` or `"NO_ACTION"` leads to no action. The
  created handler also passes over any reply containing `[NO_ACTION]`; the
  edited handler has no such test. The created handler fills `{user}` and
  `{proposalLink}` and drops the first double quote. The edited handler
  takes the text between the first `[EDIT_COMMENT] ` and the next one (or
  the end), drops its first quote, and fills `{added_timestamp}` with the
  comment's update time as
  `YYYY-MM-DD HH:MM:SS UTC`. The new body is that notice, a blank line, and
  the old body.
- `App` models `src/index.ts`. It has no label test, and only the bare
  `NO_ACTION` is recognised. The posted reply keeps its quotes (only the
  edit notice loses its first one), and there is no emptiness check. An
  edit is prefixed with `Edited by **proposal-police**: `, which contains
  the marker `Edited by **proposal-police**` that both wirings look for to
  avoid editing a comment twice.

The shared parts live in four other modules:

- `Webhook`: the payload and thread types, the constants, and the
  `forEach` walk over the thread. The walk turns each message's decision
  into GitHub writes and stops at the first exception.
- `JsString`: the JavaScript string built-ins the decision uses:
  - `indexOf` and `includes`;
  - `replace` with a string pattern, which replaces the first occurrence
    only and honours the `$` replacement patterns;
  - `split` and `join`.
- `IsoDate`: the timestamp formatting.
- `Wrappers`: `Option` and `Result`.

The decision keeps three quirks of the source:

- A message's text is read from content part `index`, the message's own
  position in the thread, and not from part 0.
- A `replace` call changes only the first occurrence.
- An `undefined` reply or notice becomes an explicit outcome. In `App`'s
  handlers, and in `EventHandlers`' edit branch, it is a `TypeError` that
  ends the walk. In `App`'s edit template it is printed as the word
  `undefined`.

## Model

| member | source | states |
|---|---|---|
| `JsString.IndexOf` | src/eventHandlers.ts:164 | a found index is an occurrence of the pattern |
| `JsString.IndexOfFirst` | src/eventHandlers.ts:164 | `indexOf` finds the first occurrence, and reports none exactly when the pattern occurs nowhere |
| `JsString.IndexOfIs` | src/eventHandlers.ts:76 | an occurrence with none before it is exactly what `indexOf` reports |
| `JsString.ContainsIff` | src/eventHandlers.ts:164 | `includes` holds exactly when the pattern occurs at some index |
| `JsString.ContainsAcrossBlankLine` | src/eventHandlers.ts:177 | a pattern without a line feed, absent from both halves, is absent from the halves joined by a blank line |
| `JsString.Substitution` | src/eventHandlers.ts:76 | a replacement text without `$` is inserted literally |
| `JsString.SubstitutionPatterns` | src/eventHandlers.ts:76 | `$$`, `$&`, `` $` `` and `$'` stand for a dollar, the match, the text before it and the text after it; `$1` stays literal |
| `JsString.ReplaceFirst` | src/eventHandlers.ts:82 | a string without the pattern is left unchanged |
| `JsString.ReplaceFirstAt` | src/eventHandlers.ts:82 | at the first occurrence, the prefix and everything after the match, later occurrences included, are kept |
| `JsString.ReplaceFirstAfter` | src/eventHandlers.ts:76-78 | with a `$`-free replacement and a prefix free of the pattern's first character, the result is prefix, replacement, rest |
| `JsString.Split` | src/eventHandlers.ts:170 | a non-empty separator always gives at least one piece |
| `JsString.SplitJoin` | src/eventHandlers.ts:170 | joining the pieces with the separator gives back the string |
| `JsString.SplitPiecesLackSeparator` | src/eventHandlers.ts:167 | no piece contains the separator |
| `JsString.SplitCutsAtFirst` | src/eventHandlers.ts:167 | every cut is made at the first occurrence of the separator in what remains |
| `JsString.SplitUnique` | src/eventHandlers.ts:167 | any list of pieces that joins back to the string, has a separator-free last piece and cuts at first occurrences is the split, so the split is determined for every non-empty separator |
| `JsString.SplitOverlapping` | src/eventHandlers.ts:167 | `"aaa".split("aa")` is `["", "a"]`, while `["a", ""]` also joins back but does not cut at the first occurrence |
| `JsString.SplitSecond` | src/eventHandlers.ts:167 | `split(sep)[1]` is defined exactly when the separator occurs |
| `JsString.SplitSecondBetween` | src/eventHandlers.ts:167 | the second piece is the text after the first separator, up to the next one or the end |
| `IsoDate.FormatIsoTimestamp` | src/eventHandlers.ts:170 | the formatted date always ends in ` UTC` |
| `IsoDate.CanonicalHead` | src/eventHandlers.ts:170 | cutting a `toISOString` result at the first `.` keeps its first 19 characters |
| `IsoDate.CanonicalSeparator` | src/eventHandlers.ts:170 | replacing the first `T` of those characters gives date, space, time |
| `IsoDate.FormatCanonical` | src/eventHandlers.ts:168-170 | a `toISOString` result is formatted as `YYYY-MM-DD HH:MM:SS UTC` |
| `IsoDate.CanonicalDollarFree` | src/eventHandlers.ts:170-171 | a formatted `toISOString` result holds no `$`, so `replace` inserts it literally |
| `IsoDate.FormatExample` | src/eventHandlers.ts:168 | `2024-01-24T13:15:24.000Z` becomes `2024-01-24 13:15:24 UTC` |
| `Webhook.DropFirstQuoteSplits` | src/eventHandlers.ts:82 | only the first double quote is removed, and later quotes survive; a string without quotes is unchanged |
| `Webhook.UserFilled` | src/eventHandlers.ts:76 | with no `{` before `{user}` and no `$` in the login, `{user}` becomes `@login` and the rest of the reply is kept |
| `Webhook.PersonaliseFills` | src/index.ts:61-64 | with no `{` in the text before either placeholder, a login free of `{` and `$`, and a URL free of `$`, `{user}` becomes `@login` and `{proposalLink}` the comment URL, the rest unchanged |
| `Webhook.UserAfterLink` | src/index.ts:62 | with `{proposalLink}` first, `indexOf` finds `{user}` at its own place |
| `Webhook.UserFilledAfterLink` | src/index.ts:62 | with `{proposalLink}` first, no other `{` before `{user}` and no `$` in the login, `{user}` becomes `@login` and the rest is kept |
| `Webhook.PersonaliseFillsReversed` | src/index.ts:61-64 | with `{proposalLink}` before `{user}`, no other `{` before either, and a login and URL free of `$`, both placeholders are filled the same way |
| `Webhook.RunFrom` | src/eventHandlers.ts:45-87 | every write comes from some message's decision and is not a no-op; an exception comes from some message; an all-no-action thread writes nothing |
| `Webhook.Run` | src/eventHandlers.ts:45 | the same for the whole thread, with no more writes than messages |
| `Webhook.RunTwo` | src/eventHandlers.ts:45-87 | a two-message thread whose second message is skipped makes exactly the first message's write |
| `Webhook.FirstFault` | src/eventHandlers.ts:45-87 | the index returned is the first message whose callback throws, every earlier one succeeding, or the thread's length when none throws |
| `Webhook.Writes` | src/eventHandlers.ts:45-87 | the in-order writes of a range of messages, no more writes than messages in the range |
| `Webhook.WritesFront` | src/eventHandlers.ts:45-87 | the writes of a range are the first message's write followed by the writes of the rest |
| `Webhook.WritesIncludes` | src/eventHandlers.ts:45-87 | every acting message in a range has its write among the range's writes |
| `Webhook.RunFromExact` | src/eventHandlers.ts:45-87 | the walk makes exactly the in-order writes of the messages before the first throw, and ends with that throw's exception or none |
| `Webhook.RunExact` | src/index.ts:51-69 | the same for the whole thread |
| `Webhook.NoFaultRunsToEnd` | src/eventHandlers.ts:45-87 | a thread in which no callback throws is walked to its end |
| `EventHandlers.DecideCreated` | src/eventHandlers.ts:48-86 | posts exactly when the reply is non-empty, from the assistant, not a bare or quoted `NO_ACTION` and free of `[NO_ACTION]`; never edits or throws |
| `EventHandlers.ExtractNotice` | src/eventHandlers.ts:167 | the notice is defined exactly when the reply contains `[EDIT_COMMENT] ` |
| `EventHandlers.EditBranch` | src/eventHandlers.ts:167-181 | an invalid date throws `RangeError`; otherwise a missing notice throws `TypeError`; a valid date and a present notice always succeed, and the new body ends with a blank line and the old body |
| `EventHandlers.DecideEdited` | src/eventHandlers.ts:145-184 | no action unless the reply is a non-empty assistant reply, not `NO_ACTION`, containing `[EDIT_COMMENT]`, on a comment without the marker |
| `EventHandlers.EditedBody` | src/eventHandlers.ts:167-177 | the notice is the text between separators, with its first quote dropped and the formatted date filled in |
| `EventHandlers.TimestampFilled` | src/eventHandlers.ts:168-171 | for a canonical date, the first `{added_timestamp}`, whatever precedes it, becomes `YYYY-MM-DD HH:MM:SS UTC` and the rest of the notice is kept |
| `EventHandlers.FillLiteral` | src/eventHandlers.ts:171 | a `$`-free formatted date replaces the first `{added_timestamp}`, whatever precedes it, the rest kept |
| `EventHandlers.HandleCreated` | src/eventHandlers.ts:14-87 | nothing happens without an open, `Help Wanted`-labelled issue and an assistant id; otherwise exactly the in-order comments of the acting messages are posted, and nothing throws |
| `EventHandlers.HandleEdited` | src/eventHandlers.ts:110-185 | without the gate nothing happens; otherwise exactly the in-order edits of the acting messages before the first throw are made, each keeping the old body as suffix; a comment with the marker is never edited |
| `EventHandlers.CreatedNeverFaults` | src/eventHandlers.ts:45-87 | no message makes the created handler's callback throw |
| `EventHandlers.CreatedPostsEveryReply` | src/eventHandlers.ts:45-86 | every assistant message whose own part holds a non-empty reply, not `NO_ACTION` and free of `[NO_ACTION]`, gets its comment |
| `EventHandlers.EditedMakesEveryEdit` | src/eventHandlers.ts:142-182 | every assistant message before the first throw that asks for an edit gets it |
| `EventHandlers.UnreadablePartSkipped` | src/eventHandlers.ts:145-150 | a message whose own content part is missing or not text is passed over by both handlers |
| `EventHandlers.PlainReplyPostedVerbatim` | src/eventHandlers.ts:75-86 | a reply without placeholders or quotes is posted exactly as written |
| `EventHandlers.PlaceholdersFilled` | src/eventHandlers.ts:75-82 | in a reply, login and URL free of `"`, with no `{` before either placeholder, a login free of `{` and `$` and a URL free of `$`, both placeholders are filled |
| `EventHandlers.PlaceholdersFilledReversed` | src/eventHandlers.ts:75-82 | with `{proposalLink}` before `{user}`, under the same conditions except that the login may hold `{`, both are filled just the same |
| `EventHandlers.OnlyFirstQuoteDropped` | src/eventHandlers.ts:80-82 | from a reply with several quotes, only the first is removed |
| `EventHandlers.FirstQuoteOf` | src/eventHandlers.ts:82 | dropping the first quote of `a"b` with a quote-free `a` gives `ab` |
| `EventHandlers.NoPlaceholderNoChange` | src/eventHandlers.ts:75-78 | without placeholders, only the quote removal changes the reply |
| `EventHandlers.EditNoticeOf` | src/eventHandlers.ts:164-177 | an edit happens only in the edit branch, and its notice is determined by the reply and the date |
| `EventHandlers.ReEditWithoutMarker` | src/eventHandlers.ts:163-177 | a notice without the marker leaves the edited comment open to the same edit again |
| `EventHandlers.ReEditWithMarker` | src/eventHandlers.ts:164 | a notice carrying the marker makes the edited comment immune to further edits |
| `EventHandlers.ReplyFirstThreadPosts` | src/eventHandlers.ts:45-86 | reply first, prompt second: exactly one comment is posted |
| `EventHandlers.ReplySecondThreadSilent` | src/eventHandlers.ts:45-53 | prompt first, one-part reply second: the reply is read from part 1, which is missing, so nothing happens |
| `App.DecideCreated` | src/index.ts:54-68 | any reply other than the bare `NO_ACTION` is posted with its placeholders filled; an `undefined` reply throws on `replace` |
| `App.Notice` | src/index.ts:134-135 | without `[EDIT_COMMENT] ` the notice prints as `undefined` |
| `App.NoticeBetween` | src/index.ts:134 | the notice is the text between separators with its first quote dropped |
| `App.EditedBody` | src/index.ts:135-141 | the body starts with `Edited by **proposal-police**: ` and ends with a blank line and the old body |
| `App.DecideEdited` | src/index.ts:124-147 | edits exactly when an assistant reply other than `NO_ACTION` contains `[EDIT_COMMENT]` and the comment lacks the marker; throws (on `includes`) exactly for an assistant message with `undefined` text, and otherwise returns with no action |
| `App.HandleCreated` | src/index.ts:20-69 | nothing happens unless the issue is open and the id is set; otherwise exactly the in-order comments of the acting messages before the first throw are posted |
| `App.HandleEdited` | src/index.ts:90-148 | the same walk for edits, each marked and keeping the old body as suffix |
| `App.CreatedPostsEveryReply` | src/index.ts:51-68 | every assistant message before the first throw whose own part holds a reply other than `NO_ACTION` gets its comment |
| `App.EditedMakesEveryEdit` | src/index.ts:121-145 | every assistant message before the first throw that asks for an edit of an unmarked comment gets it |
| `App.UnreadablePartThrows` | src/index.ts:54-62 | an assistant message whose own content part is missing or not text makes both callbacks throw, so the walk stops there at the latest |
| `App.FaultIffUnreadable` | src/index.ts:54-62 | a callback throws on message `j` exactly when it is an assistant message whose own part yields `undefined` |
| `App.WalkStopsAtUnreadable` | src/index.ts:51-69 | both walks stop exactly at the first assistant message whose own part yields `undefined`; every earlier message returns |
| `App.LabelsIgnored` | src/index.ts:20-23 | the result does not depend on the issue's labels |
| `App.PostedVerbatim` | src/index.ts:57-68 | a reply without placeholders is posted exactly as written |
| `App.QuotedNoActionPosted` | src/index.ts:57 | a quoted `"NO_ACTION"` is posted as a comment |
| `App.EmptyReplyPosted` | src/index.ts:57-68 | an empty reply is posted as an empty comment |
| `App.UndefinedNotice` | src/index.ts:132-135 | `[EDIT_COMMENT]` without the trailing space yields the notice `undefined` |
| `App.EditIdempotent` | src/index.ts:132-141 | once edited, a comment is never edited again, whatever the reply |
| `App.ReplyFirstThreadPosts` | src/index.ts:51-68 | reply first, prompt second: exactly one comment is posted |
| `App.ReplySecondThreadThrows` | src/index.ts:54-62 | prompt first, one-part reply second: both handlers throw on the missing part and write nothing |

## Left out

- The OpenAI calls are left out: creating and running the thread, polling
  for completion every 1.5 s, and listing the messages. The listed messages
  are a parameter. The prompt text sent to the assistant is left out too.
- The `count` counter, `console.log` output, `clearInterval`, the
  `.catch` handlers and `dotenv` loading have no effect on the decision.
- The GitHub calls are left out: the decision returns the `createComment` or
  `updateComment` request it would make. A request that fails or is
  rejected is not modelled.
- The text that follows `[NO_ACTION] ` is computed only for logging, so it is
  not modelled.
- Date parsing is an input: `new Date(updated_at).toISOString()` is the
  comment's `isoUpdatedAt`, and `None` stands for an invalid date.
  `toISOString`'s own normalisation is left out, including years outside
  0000 to 9999.
- `IsoDate.FormatIsoTimestamp`: the contract only promises the ` UTC` ending
  for arbitrary input. The exact form is stated for the canonical
  `toISOString` output by `IsoDate.FormatCanonical`.
- `Webhook.RunFrom`: an exception is modelled as ending the `forEach` walk.
  Writes already issued stay issued. The asynchronous completion order of
  those writes is not modelled.
- `EventHandlers.HandleEdited`: the contract says a comment carrying the
  marker is never edited. It does not promise that the bot's own edit adds
  the marker, because in this wiring the marker appears only if the
  assistant wrote it into the notice (`EventHandlers.ReEditWithoutMarker`).
- In two places the source's own comments promise more than its code
  does; the model follows the code in both:
  - The comment at `src/eventHandlers.ts:80` says every double quote is
    removed. `.replace('"', '')` removes only the first
    (`EventHandlers.OnlyFirstQuoteDropped`).
  - The comments at `src/eventHandlers.ts:165` and `src/index.ts:133` say
    the notice is the text after `[EDIT_COMMENT]`. `split(...)[1]` keeps
    only the text up to the next `[EDIT_COMMENT] `
    (`JsString.SplitSecondBetween`).
- Strings are sequences of Unicode scalar values, not of UTF-16 code units.
  A character outside the Basic Multilingual Plane counts as one position
  rather than two, and a lone surrogate cannot be written. Every pattern
  the handlers look for is ASCII, so no match, split or replacement differs.
- `src/openai.ts` only builds the API client, and `src/config.ts` is not
  part of this model: the assistant id it supplies is the `Config` input.

=== FILE: app.dfy ===
/** The wiring in `src/index.ts`, registered with `app.on`: the `Help Wanted`
    label test is commented out, only the bare `NO_ACTION` is recognised,
    nothing is stripped from a posted reply, and the edit notice is always
    prefixed with the bot's marker. */
module App {
  import opened Wrappers
  import opened JsString
  import opened Webhook

  /** The issue is open and the assistant id is set; labels are not looked at. */
  predicate Gate(cfg: Config, issue: Issue) {
    issue.state == "open" && Configured(cfg)
  }

  /** The created handler's decision for one message. Only the bare
      `NO_ACTION` or a prompt-side message is skipped; any other text,
      empty, quoted `"NO_ACTION"` or `[NO_ACTION]` included, is posted with
      its placeholders filled, and an `undefined` reply throws on `.replace`. */
  function DecideCreated(reply: Option<string>, role: Role, c: Comment): (r: Result<Action, Fault>)
    ensures role == User || reply == Some(NoActionReply) ==> r == Success(NoAction)
    ensures role == Assistant && reply.None? ==> r == Failure(TypeError("replace"))
    ensures role == Assistant && reply.Some? && reply.value != NoActionReply ==>
              r == Success(CreateComment(Personalise(reply.value, c)))
  {
    if reply == Some(NoActionReply) || role == User then Success(NoAction)
    else if reply.None? then Failure(TypeError("replace"))
    else Success(CreateComment(Personalise(reply.value, c)))
  }

  /** What `${extractedNotice}` prints: the second piece of the split on
      `[EDIT_COMMENT] ` with its first quote dropped, or the word `undefined`. */
  function Notice(t: string): (r: string)
    ensures !Contains(t, EditSeparator) ==> r == "undefined"
  {
    match SplitSecond(t, EditSeparator)
    case None => "undefined"
    case Some(piece) => DropFirstQuote(piece)
  }

  /** When the reply has a `[EDIT_COMMENT] `, the notice is the text from
      there to the next one (or the end), with its first quote dropped. */
  lemma NoticeBetween(t: string, i: nat)
    requires IndexOf(t, EditSeparator) == Some(i)
    ensures SplitSecond(t, EditSeparator).Some?
    ensures var piece := SplitSecond(t, EditSeparator).value;
            var rest := t[i + |EditSeparator|..];
            && piece <= rest
            && !Contains(piece, EditSeparator)
            && (|piece| == |rest| || OccursAt(rest, EditSeparator, |piece|))
            && Notice(t) == DropFirstQuote(piece)
  {
    SplitSecondBetween(t, EditSeparator, i);
  }

  /** `Edited by **proposal-police**: `, the start of every edited body. */
  const NoticePrefix := EditMarker + ": "

  /** The edited body: the marked notice, a blank line, then the old body. */
  function EditedBody(t: string, body: string): (r: string)
    ensures NoticePrefix <= r
    ensures EndsWith(r, "\n\n" + body)
  {
    var head := NoticePrefix + Notice(t);
    EndsWithConcat(head, "\n\n" + body);
    assert (head + ("\n\n" + body))[..|NoticePrefix|] == NoticePrefix;
    head + ("\n\n" + body)
  }

  /** The edited handler's decision for one message. It edits exactly when
      an assistant reply other than `NO_ACTION` contains `[EDIT_COMMENT]`
      and the comment lacks the marker; the new body starts with the marker
      and ends with the original body. An `undefined` reply throws on `.includes`. */
  function DecideEdited(reply: Option<string>, role: Role, c: Comment): (r: Result<Action, Fault>)
    ensures role == User || reply == Some(NoActionReply) ==> r == Success(NoAction)
    ensures role == Assistant && reply.None? ==> r == Failure(TypeError("includes"))
    ensures r.Failure? <==> (role == Assistant && reply.None?)
    ensures r.Success? ==> !r.value.CreateComment?
    ensures (r.Success? && r.value.UpdateComment?) <==>
              && reply.Some? && role == Assistant && reply.value != NoActionReply
              && Contains(reply.value, EditTag) && !Contains(c.body, EditMarker)
    ensures r.Success? && r.value.UpdateComment? ==> r.value.body == EditedBody(reply.value, c.body)
  {
    if reply == Some(NoActionReply) || role == User then Success(NoAction)
    else if reply.None? then
      assert role == Assistant;
      Failure(TypeError("includes"))
    else
      assert role.Assistant?;
      if Contains(reply.value, EditTag) && !Contains(c.body, EditMarker) then
        Success(UpdateComment(EditedBody(reply.value, c.body)))
      else Success(NoAction)
  }

  /** The created handler's callback, as a decision per message. */
  function CreatedDecision(c: Comment): Decide {
    (reply, role) => DecideCreated(reply, role, c)
  }

  /** The edited handler's callback, as a decision per message. */
  function EditedDecision(c: Comment): Decide {
    (reply, role) => DecideEdited(reply, role, c)
  }

  /** Nothing is ever posted unless the issue is open and the id is set; then
      the handler posts, in thread order, the comment of every message that
      asks for one before the first message whose callback throws, and stops
      there. Prompt-side messages never lead to a write. */
  function HandleCreated(cfg: Config, issue: Issue, c: Comment, msgs: seq<ThreadMessage>): (r: Outcome)
    ensures !Gate(cfg, issue) ==> r == Silent
    ensures Gate(cfg, issue) ==>
              var k := FirstFault(msgs, CreatedDecision(c), 0);
              r == Outcome(Writes(msgs, CreatedDecision(c), 0, k),
                           if k < |msgs| then Some(DecisionAt(msgs, CreatedDecision(c), k).error) else None)
    ensures forall k :: 0 <= k < |r.writes| ==> r.writes[k].CreateComment?
    ensures (forall j :: 0 <= j < |msgs| ==> msgs[j].role == User) ==> r == Silent
  {
    if Gate(cfg, issue) then
      RunExact(msgs, CreatedDecision(c));
      Run(msgs, CreatedDecision(c))
    else Silent
  }

  /** The same walk for edits: each edit is marked and keeps the original
      body as its suffix, and a comment already carrying the marker is left
      alone. */
  function HandleEdited(cfg: Config, issue: Issue, c: Comment, msgs: seq<ThreadMessage>): (r: Outcome)
    ensures !Gate(cfg, issue) ==> r == Silent
    ensures Gate(cfg, issue) ==>
              var k := FirstFault(msgs, EditedDecision(c), 0);
              r == Outcome(Writes(msgs, EditedDecision(c), 0, k),
                           if k < |msgs| then Some(DecisionAt(msgs, EditedDecision(c), k).error) else None)
    ensures forall k :: 0 <= k < |r.writes| ==>
              && r.writes[k].UpdateComment?
              && NoticePrefix <= r.writes[k].body
              && EndsWith(r.writes[k].body, "\n\n" + c.body)
    ensures (forall j :: 0 <= j < |msgs| ==> msgs[j].role == User) ==> r == Silent
  {
    if Gate(cfg, issue) then
      RunExact(msgs, EditedDecision(c));
      Run(msgs, EditedDecision(c))
    else Silent
  }

  /** Every assistant message before the first throw whose own content part
      holds a reply other than `NO_ACTION` gets its personalised comment. */
  lemma CreatedPostsEveryReply(cfg: Config, issue: Issue, c: Comment, msgs: seq<ThreadMessage>, j: nat, t: string)
    requires Gate(cfg, issue) && j < FirstFault(msgs, CreatedDecision(c), 0) && msgs[j].role == Assistant
    requires ReplyText(msgs[j], j) == Some(t) && t != NoActionReply
    ensures CreateComment(Personalise(t, c)) in HandleCreated(cfg, issue, c, msgs).writes
  {
    WritesIncludes(msgs, CreatedDecision(c), 0, FirstFault(msgs, CreatedDecision(c), 0), j);
  }

  /** Every assistant message before the first throw that asks for an edit
      of an unmarked comment gets it. */
  lemma EditedMakesEveryEdit(cfg: Config, issue: Issue, c: Comment, msgs: seq<ThreadMessage>, j: nat, t: string)
    requires Gate(cfg, issue) && j < FirstFault(msgs, EditedDecision(c), 0) && msgs[j].role == Assistant
    requires ReplyText(msgs[j], j) == Some(t) && t != NoActionReply
    requires Contains(t, EditTag) && !Contains(c.body, EditMarker)
    ensures UpdateComment(EditedBody(t, c.body)) in HandleEdited(cfg, issue, c, msgs).writes
  {
    WritesIncludes(msgs, EditedDecision(c), 0, FirstFault(msgs, EditedDecision(c), 0), j);
  }

  /** Message `j` is an assistant message whose own part yields `undefined`. */
  predicate Unreadable(msgs: seq<ThreadMessage>, j: nat)
    requires j < |msgs|
  {
    msgs[j].role == Assistant && ReplyText(msgs[j], j).None?
  }

  /** A callback throws on message `j` exactly when that message is
      `Unreadable`; on every other message it returns. */
  lemma FaultIffUnreadable(c: Comment, msgs: seq<ThreadMessage>, j: nat)
    requires j < |msgs|
    ensures DecisionAt(msgs, CreatedDecision(c), j).Failure? <==> Unreadable(msgs, j)
    ensures DecisionAt(msgs, EditedDecision(c), j).Failure? <==> Unreadable(msgs, j)
  {
    assert DecisionAt(msgs, CreatedDecision(c), j) == DecideCreated(ReplyText(msgs[j], j), msgs[j].role, c);
    assert DecisionAt(msgs, EditedDecision(c), j) == DecideEdited(ReplyText(msgs[j], j), msgs[j].role, c);
  }

  /** Both walks stop exactly at the first `Unreadable` message: every
      message before it, whatever its reply, returns from its callback. */
  lemma WalkStopsAtUnreadable(c: Comment, msgs: seq<ThreadMessage>)
    ensures var k := FirstFault(msgs, CreatedDecision(c), 0);
            && (k < |msgs| ==> Unreadable(msgs, k))
            && forall j :: 0 <= j < k ==> !Unreadable(msgs, j)
    ensures var k := FirstFault(msgs, EditedDecision(c), 0);
            && (k < |msgs| ==> Unreadable(msgs, k))
            && forall j :: 0 <= j < k ==> !Unreadable(msgs, j)
  {
    forall j | 0 <= j < |msgs|
      ensures DecisionAt(msgs, CreatedDecision(c), j).Failure? <==> Unreadable(msgs, j)
      ensures DecisionAt(msgs, EditedDecision(c), j).Failure? <==> Unreadable(msgs, j)
    {
      FaultIffUnreadable(c, msgs, j);
    }
  }

  /** An assistant message whose own content part is missing or not text is
      decided on `undefined`, and both callbacks throw on it, even when its
      part 0 holds a reply. */
  lemma UnreadablePartThrows(c: Comment, msgs: seq<ThreadMessage>, j: nat)
    requires j < |msgs| && msgs[j].role == Assistant
    requires j >= |msgs[j].content| || !msgs[j].content[j].TextPart?
    ensures DecisionAt(msgs, CreatedDecision(c), j) == Failure(TypeError("replace"))
    ensures DecisionAt(msgs, EditedDecision(c), j) == Failure(TypeError("includes"))
    ensures FirstFault(msgs, CreatedDecision(c), 0) <= j && FirstFault(msgs, EditedDecision(c), 0) <= j
  {
    DecisionReadsOwnPart(msgs, CreatedDecision(c), j);
    DecisionReadsOwnPart(msgs, EditedDecision(c), j);
  }

  /** The labels of the issue make no difference to either handler. */
  lemma LabelsIgnored(cfg: Config, state: string, labels: seq<string>, labels': seq<string>, c: Comment, msgs: seq<ThreadMessage>)
    ensures HandleCreated(cfg, Issue(state, labels), c, msgs) == HandleCreated(cfg, Issue(state, labels'), c, msgs)
    ensures HandleEdited(cfg, Issue(state, labels), c, msgs) == HandleEdited(cfg, Issue(state, labels'), c, msgs)
  {
  }

  /** A reply without placeholders is posted exactly as written, quotes and
      `[NO_ACTION]` included, unless it is the bare `NO_ACTION`. */
  lemma PostedVerbatim(t: string, c: Comment)
    requires t != NoActionReply
    requires !Contains(t, UserPlaceholder) && !Contains(t, LinkPlaceholder)
    ensures DecideCreated(Some(t), Assistant, c) == Success(CreateComment(t))
  {
  }

  /** A quoted `"NO_ACTION"` is not recognised and is posted as it stands. */
  lemma QuotedNoActionPosted(c: Comment)
    ensures DecideCreated(Some(QuotedNoActionReply), Assistant, c) == Success(CreateComment(QuotedNoActionReply))
  {
    NotContainsFirstChar(QuotedNoActionReply, UserPlaceholder);
    NotContainsFirstChar(QuotedNoActionReply, LinkPlaceholder);
  }

  /** An empty reply is posted as an empty comment. */
  lemma EmptyReplyPosted(c: Comment)
    ensures DecideCreated(Some(""), Assistant, c) == Success(CreateComment(""))
  {
    NotContainsFirstChar("", UserPlaceholder);
    NotContainsFirstChar("", LinkPlaceholder);
  }

  /** A reply with `[EDIT_COMMENT]` but no `[EDIT_COMMENT] ` (with the space)
      has no second piece, and the template prints `undefined` as the notice. */
  lemma UndefinedNotice(t: string, c: Comment)
    requires t != NoActionReply && Contains(t, EditTag) && !Contains(t, EditSeparator)
    requires !Contains(c.body, EditMarker)
    ensures DecideEdited(Some(t), Assistant, c) == Success(UpdateComment(NoticePrefix + "undefined" + "\n\n" + c.body))
  {
    assert Notice(t) == "undefined";
    assert NoticePrefix + "undefined" + ("\n\n" + c.body) == NoticePrefix + "undefined" + "\n\n" + c.body;
  }

  /** Once the bot has edited a comment, no reply whatsoever makes it edit
      that comment again: the new body starts with the marker. */
  lemma EditIdempotent(reply: Option<string>, role: Role, c: Comment, body: string, reply': Option<string>, role': Role)
    requires DecideEdited(reply, role, c) == Success(UpdateComment(body))
    ensures var r := DecideEdited(reply', role', c.(body := body));
            !(r.Success? && r.value.UpdateComment?)
  {
    assert body[..|EditMarker|] == EditMarker;
    assert OccursAt(body, EditMarker, 0);
    ContainsAt(body, EditMarker, 0);
  }

  /** The usual thread, the assistant's reply first with its text in part 0
      and the bot's prompt second, yields exactly one comment. */
  lemma ReplyFirstThreadPosts(cfg: Config, issue: Issue, c: Comment, t: string, rest: seq<ContentPart>, prompt: seq<ContentPart>)
    requires Gate(cfg, issue) && t != NoActionReply
    ensures var msgs := [ThreadMessage(Assistant, [TextPart(t)] + rest), ThreadMessage(User, prompt)];
            HandleCreated(cfg, issue, c, msgs) == Outcome([CreateComment(Personalise(t, c))], None)
  {
    var msgs := [ThreadMessage(Assistant, [TextPart(t)] + rest), ThreadMessage(User, prompt)];
    assert ReplyText(msgs[0], 0) == Some(t);
    RunTwo(msgs, CreatedDecision(c), CreateComment(Personalise(t, c)));
  }

  /** A reply listed second is read from content part 1; a one-part reply
      there is `undefined`, and both handlers throw on it and write nothing. */
  lemma ReplySecondThreadThrows(cfg: Config, issue: Issue, c: Comment, t: string, prompt: seq<ContentPart>)
    requires Gate(cfg, issue)
    ensures var msgs := [ThreadMessage(User, prompt), ThreadMessage(Assistant, [TextPart(t)])];
            && HandleCreated(cfg, issue, c, msgs) == Outcome([], Some(TypeError("replace")))
            && HandleEdited(cfg, issue, c, msgs) == Outcome([], Some(TypeError("includes")))
  {
    var msgs := [ThreadMessage(User, prompt), ThreadMessage(Assistant, [TextPart(t)])];
    assert ReplyText(msgs[1], 1) == None;
    var created := CreatedDecision(c);
    var edited := EditedDecision(c);
    assert RunFrom(msgs, created, 1) == Outcome([], Some(TypeError("replace")));
    assert RunFrom(msgs, edited, 1) == Outcome([], Some(TypeError("includes")));
  }
}

=== FILE: event_handlers.dfy ===
/** The wiring in `src/eventHandlers.ts`: both handlers are gated on an open
    issue carrying the `Help Wanted` label and accept a quoted `"NO_ACTION"`;
    the created handler also keeps quiet on a `[NO_ACTION]` reply and drops
    the first quote of the posted text, and the edited handler drops the
    notice's first quote and fills its `{added_timestamp}`. */
module EventHandlers {
  import opened Wrappers
  import opened JsString
  import opened IsoDate
  import opened Webhook

  const HelpWantedLabel := "Help Wanted"

  /** The issue is open, some label is named `Help Wanted`, and the assistant id is set. */
  predicate Gate(cfg: Config, issue: Issue) {
    issue.state == "open" && HelpWantedLabel in issue.labels && Configured(cfg)
  }

  /** `assistantResponse === 'NO_ACTION' || assistantResponse === '"NO_ACTION"'`. */
  predicate IsNoActionReply(t: string) {
    t == NoActionReply || t == QuotedNoActionReply
  }

  /** The text of the new comment: placeholders filled, then the first quote dropped. */
  function CreatedBody(reply: string, c: Comment): string {
    DropFirstQuote(Personalise(reply, c))
  }

  /** The created handler's decision for one message. It posts exactly when
      the reply is non-empty, not a bare or quoted `NO_ACTION`, from the
      assistant, and free of `[NO_ACTION]`; it never edits and never throws. */
  function DecideCreated(reply: Option<string>, role: Role, c: Comment): (r: Result<Action, Fault>)
    ensures r.Success? && !r.value.UpdateComment?
    ensures role == User ==> r == Success(NoAction)
    ensures reply.None? || reply == Some("") ==> r == Success(NoAction)
    ensures reply.Some? && IsNoActionReply(reply.value) ==> r == Success(NoAction)
    ensures reply.Some? && Contains(reply.value, NoActionTag) ==> r == Success(NoAction)
    ensures r.value.CreateComment? <==>
              && reply.Some? && reply.value != "" && role == Assistant
              && !IsNoActionReply(reply.value) && !Contains(reply.value, NoActionTag)
    ensures r.value.CreateComment? ==> r.value.body == CreatedBody(reply.value, c)
  {
    if reply.None? || reply.value == "" then Success(NoAction)
    else if IsNoActionReply(reply.value) || role == User then Success(NoAction)
    else if Contains(reply.value, NoActionTag) then Success(NoAction)
    else assert role.Assistant?; Success(CreateComment(CreatedBody(reply.value, c)))
  }

  /** `assistantResponse.split('[EDIT_COMMENT] ')?.[1]?.replace('"', '')`,
      `None` where JavaScript yields `undefined`. */
  function ExtractNotice(reply: string): (r: Option<string>)
    ensures r.Some? <==> Contains(reply, EditSeparator)
  {
    match SplitSecond(reply, EditSeparator)
    case None => None
    case Some(piece) => Some(DropFirstQuote(piece))
  }

  /** The edited handler reaches its edit branch: a non-empty assistant reply,
      not a bare or quoted `NO_ACTION`, containing `[EDIT_COMMENT]`, on a
      comment that does not yet carry the bot's marker. */
  predicate WantsEdit(reply: Option<string>, role: Role, c: Comment) {
    && reply.Some? && reply.value != "" && role == Assistant
    && !IsNoActionReply(reply.value)
    && Contains(reply.value, EditTag) && !Contains(c.body, EditMarker)
  }

  /** `extractedNotice.replace('{added_timestamp}', formattedDate)`. */
  function FillTimestamp(notice: string, iso: string): string {
    ReplaceFirst(notice, TimestampPlaceholder, FormatIsoTimestamp(iso))
  }

  /** The edit branch: the date is formatted first (an invalid date throws
      `RangeError`), then the notice's `{added_timestamp}` is filled, which
      throws `TypeError` on an `undefined` notice; the new body is the notice,
      a blank line and the original body. */
  function EditBranch(t: string, c: Comment): (r: Result<Action, Fault>)
    ensures r.Success? ==> r.value.UpdateComment? && EndsWith(r.value.body, "\n\n" + c.body)
    ensures r == Failure(RangeError) <==> c.isoUpdatedAt.None?
    ensures r == Failure(TypeError("replace")) <==> c.isoUpdatedAt.Some? && !Contains(t, EditSeparator)
    ensures c.isoUpdatedAt.Some? && Contains(t, EditSeparator) ==> r.Success?
  {
    match c.isoUpdatedAt
    case None => Failure(RangeError)
    case Some(iso) =>
      match ExtractNotice(t)
      case None => Failure(TypeError("replace"))
      case Some(n) =>
        var filled := FillTimestamp(n, iso);
        EndsWithConcat(filled, "\n\n" + c.body);
        assert filled + "\n\n" + c.body == filled + ("\n\n" + c.body);
        Success(UpdateComment(filled + "\n\n" + c.body))
  }

  /** A canonical date fills the notice's first `{added_timestamp}` as
      `YYYY-MM-DD HH:MM:SS UTC` and leaves the rest of the notice alone,
      whatever text comes before it. */
  lemma TimestampFilled(a: string, b: string, iso: string)
    requires IndexOf(a + TimestampPlaceholder + b, TimestampPlaceholder) == Some(|a|)
    requires IsCanonicalIso(iso)
    ensures FillTimestamp(a + TimestampPlaceholder + b, iso) == a + (iso[..10] + " " + iso[11..19] + " UTC") + b
  {
    FormatCanonical(iso);
    CanonicalDollarFree(iso);
    FillLiteral(a, b, iso);
  }

  /** A formatted date without `$` replaces the first placeholder literally. */
  lemma FillLiteral(a: string, b: string, iso: string)
    requires IndexOf(a + TimestampPlaceholder + b, TimestampPlaceholder) == Some(|a|)
    requires '$' !in FormatIsoTimestamp(iso)
    ensures FillTimestamp(a + TimestampPlaceholder + b, iso) == a + FormatIsoTimestamp(iso) + b
  {
    ReplaceFirstLiteralAt(a, TimestampPlaceholder, b, FormatIsoTimestamp(iso));
  }

  /** A notice with no `{` before its placeholder meets the requirement of
      `TimestampFilled`. */
  lemma TimestampFirstAfterPlainText(a: string, b: string)
    requires '{' !in a
    ensures IndexOf(a + TimestampPlaceholder + b, TimestampPlaceholder) == Some(|a|)
  {
    IndexOfAfter(a, TimestampPlaceholder, b);
  }

  /** The edited handler's decision for one message: it edits only in its
      edit branch and otherwise does nothing. */
  function DecideEdited(reply: Option<string>, role: Role, c: Comment): (r: Result<Action, Fault>)
    ensures !WantsEdit(reply, role, c) ==> r == Success(NoAction)
    ensures WantsEdit(reply, role, c) ==> r == EditBranch(reply.value, c)
  {
    if reply.None? || reply.value == "" then Success(NoAction)
    else if IsNoActionReply(reply.value) || role == User then Success(NoAction)
    else if Contains(reply.value, EditTag) && !Contains(c.body, EditMarker) then EditBranch(reply.value, c)
    else Success(NoAction)
  }

  /** The notice placed above the original body: the text between the first
      `[EDIT_COMMENT] ` and the next one, its first quote dropped and its
      first `{added_timestamp}` filled with the formatted date. */
  lemma EditedBody(reply: string, c: Comment, iso: string, i: nat)
    requires WantsEdit(Some(reply), Assistant, c) && c.isoUpdatedAt == Some(iso)
    requires IndexOf(reply, EditSeparator) == Some(i)
    ensures SplitSecond(reply, EditSeparator).Some?
    ensures var piece := SplitSecond(reply, EditSeparator).value;
            var rest := reply[i + |EditSeparator|..];
            && piece <= rest
            && !Contains(piece, EditSeparator)
            && (|piece| == |rest| || OccursAt(rest, EditSeparator, |piece|))
            && DecideEdited(Some(reply), Assistant, c) ==
                 Success(UpdateComment(ReplaceFirst(DropFirstQuote(piece), TimestampPlaceholder, FormatIsoTimestamp(iso)) + "\n\n" + c.body))
  {
    SplitSecondBetween(reply, EditSeparator, i);
  }

  /** The created handler's callback, as a decision per message. */
  function CreatedDecision(c: Comment): Decide {
    (reply, role) => DecideCreated(reply, role, c)
  }

  /** The edited handler's callback, as a decision per message. */
  function EditedDecision(c: Comment): Decide {
    (reply, role) => DecideEdited(reply, role, c)
  }

  /** No message makes the created handler's callback throw. */
  lemma CreatedNeverFaults(c: Comment, msgs: seq<ThreadMessage>)
    ensures FirstFault(msgs, CreatedDecision(c), 0) == |msgs|
  {
    forall j | 0 <= j < |msgs|
      ensures DecisionAt(msgs, CreatedDecision(c), j).Success?
    {
    }
    NoFaultRunsToEnd(msgs, CreatedDecision(c));
  }

  /** Nothing is ever posted unless the gate passes; when it passes, the
      handler posts, in thread order, one comment for each message whose
      decision creates one, and never throws. */
  function HandleCreated(cfg: Config, issue: Issue, c: Comment, msgs: seq<ThreadMessage>): (r: Outcome)
    ensures !Gate(cfg, issue) ==> r == Silent
    ensures Gate(cfg, issue) ==> r == Outcome(Writes(msgs, CreatedDecision(c), 0, |msgs|), None)
    ensures forall k :: 0 <= k < |r.writes| ==> r.writes[k].CreateComment?
    ensures (forall j :: 0 <= j < |msgs| ==> msgs[j].role == User) ==> r == Silent
  {
    if Gate(cfg, issue) then
      CreatedNeverFaults(c, msgs);
      RunExact(msgs, CreatedDecision(c));
      Run(msgs, CreatedDecision(c))
    else Silent
  }

  /** Nothing is ever edited unless the gate passes; when it passes, the
      handler makes, in thread order, the edit of every message that asks for
      one before the first message whose callback throws, and stops there.
      Every edit keeps the old body as its suffix, and a comment that already
      carries the marker is left alone. */
  function HandleEdited(cfg: Config, issue: Issue, c: Comment, msgs: seq<ThreadMessage>): (r: Outcome)
    ensures !Gate(cfg, issue) ==> r == Silent
    ensures Gate(cfg, issue) ==>
              var k := FirstFault(msgs, EditedDecision(c), 0);
              r == Outcome(Writes(msgs, EditedDecision(c), 0, k),
                           if k < |msgs| then Some(DecisionAt(msgs, EditedDecision(c), k).error) else None)
    ensures forall k :: 0 <= k < |r.writes| ==>
              r.writes[k].UpdateComment? && EndsWith(r.writes[k].body, "\n\n" + c.body)
    ensures Contains(c.body, EditMarker) ==> r == Silent
    ensures (forall j :: 0 <= j < |msgs| ==> msgs[j].role == User) ==> r == Silent
  {
    if Gate(cfg, issue) then
      RunExact(msgs, EditedDecision(c));
      Run(msgs, EditedDecision(c))
    else Silent
  }

  /** Every proposal-like reply in the thread gets its comment: an assistant
      message whose own content part holds a non-empty reply, not `NO_ACTION`
      and free of `[NO_ACTION]`, is answered with the personalised reply. */
  lemma CreatedPostsEveryReply(cfg: Config, issue: Issue, c: Comment, msgs: seq<ThreadMessage>, j: nat, t: string)
    requires Gate(cfg, issue) && j < |msgs| && msgs[j].role == Assistant
    requires ReplyText(msgs[j], j) == Some(t)
    requires t != "" && !IsNoActionReply(t) && !Contains(t, NoActionTag)
    ensures CreateComment(CreatedBody(t, c)) in HandleCreated(cfg, issue, c, msgs).writes
  {
    WritesIncludes(msgs, CreatedDecision(c), 0, |msgs|, j);
  }

  /** Every assistant message before the first throw that asks for an edit
      gets it. */
  lemma EditedMakesEveryEdit(cfg: Config, issue: Issue, c: Comment, msgs: seq<ThreadMessage>, j: nat, t: string)
    requires Gate(cfg, issue) && j < FirstFault(msgs, EditedDecision(c), 0) && msgs[j].role == Assistant
    requires ReplyText(msgs[j], j) == Some(t) && WantsEdit(Some(t), Assistant, c)
    ensures EditBranch(t, c).Success?
    ensures EditBranch(t, c).value in HandleEdited(cfg, issue, c, msgs).writes
  {
    assert DecisionAt(msgs, EditedDecision(c), j).Success?;
    WritesIncludes(msgs, EditedDecision(c), 0, FirstFault(msgs, EditedDecision(c), 0), j);
  }

  /** A message whose own content part is missing or not text is decided on
      `undefined`, and both handlers pass over it, even when its part 0 holds
      a reply. */
  lemma UnreadablePartSkipped(c: Comment, msgs: seq<ThreadMessage>, j: nat)
    requires j < |msgs|
    requires j >= |msgs[j].content| || !msgs[j].content[j].TextPart?
    ensures DecisionAt(msgs, CreatedDecision(c), j) == Success(NoAction)
    ensures DecisionAt(msgs, EditedDecision(c), j) == Success(NoAction)
  {
    DecisionReadsOwnPart(msgs, CreatedDecision(c), j);
    DecisionReadsOwnPart(msgs, EditedDecision(c), j);
  }

  /** A reply with no placeholder and no quote is posted exactly as written. */
  lemma PlainReplyPostedVerbatim(t: string, c: Comment)
    requires t != "" && !IsNoActionReply(t) && !Contains(t, NoActionTag)
    requires !Contains(t, UserPlaceholder) && !Contains(t, LinkPlaceholder) && '"' !in t
    ensures DecideCreated(Some(t), Assistant, c) == Success(CreateComment(t))
  {
    DropFirstQuoteSplits(t);
  }

  /** With its placeholders filled as `PersonaliseFills` states, a
      quote-free reply is posted with nothing else changed. */
  lemma PlaceholdersFilled(a: string, b: string, d: string, c: Comment)
    requires '{' !in a && '{' !in b && '{' !in c.login
    requires '$' !in c.login && '$' !in c.htmlUrl
    requires '"' !in a && '"' !in b && '"' !in d && '"' !in c.login && '"' !in c.htmlUrl
    ensures CreatedBody(a + UserPlaceholder + b + LinkPlaceholder + d, c) == a + "@" + c.login + b + c.htmlUrl + d
  {
    PersonaliseFills(a, b, d, c);
    var filled := a + "@" + c.login + b + c.htmlUrl + d;
    assert '"' !in filled;
    DropFirstQuoteSplits(filled);
  }

  /** The same with `{proposalLink}` before `{user}`: the filling does not
      depend on the order of the placeholders. */
  lemma PlaceholdersFilledReversed(a: string, b: string, d: string, c: Comment)
    requires '{' !in a && '{' !in b
    requires '$' !in c.login && '$' !in c.htmlUrl
    requires '"' !in a && '"' !in b && '"' !in d && '"' !in c.login && '"' !in c.htmlUrl
    ensures CreatedBody(a + LinkPlaceholder + b + UserPlaceholder + d, c) == a + c.htmlUrl + b + "@" + c.login + d
  {
    PersonaliseFillsReversed(a, b, d, c);
    var filled := a + c.htmlUrl + b + "@" + c.login + d;
    assert '"' !in filled;
    DropFirstQuoteSplits(filled);
  }

  /** Only the first double quote is removed: with `"a" "b"` as the reply,
      `a" "b"` is posted, quotes and all. */
  lemma OnlyFirstQuoteDropped(a: string, b: string, c: Comment)
    requires '"' !in a
    requires var t := a + "\"" + b;
             && !IsNoActionReply(t) && !Contains(t, NoActionTag)
             && !Contains(t, UserPlaceholder) && !Contains(t, LinkPlaceholder)
    ensures DecideCreated(Some(a + "\"" + b), Assistant, c) == Success(CreateComment(a + b))
  {
    var t := a + "\"" + b;
    NoPlaceholderNoChange(t, c);
    FirstQuoteOf(a, b);
    assert |t| > 0;
  }

  lemma FirstQuoteOf(a: string, b: string)
    requires '"' !in a
    ensures DropFirstQuote(a + "\"" + b) == a + b
  {
    ReplaceFirstChar(a, '"', b, "");
    assert a + "\"" + b == a + ['"'] + b;
    assert a + "" + b == a + b;
  }

  /** A reply without placeholders only loses its first quote. */
  lemma NoPlaceholderNoChange(t: string, c: Comment)
    requires !Contains(t, UserPlaceholder) && !Contains(t, LinkPlaceholder)
    ensures Personalise(t, c) == t
    ensures CreatedBody(t, c) == DropFirstQuote(t)
  {
  }

  /** The body the edit branch writes, once the date and the notice are defined. */
  lemma EditBranchBody(t: string, c: Comment, iso: string)
    requires c.isoUpdatedAt == Some(iso) && Contains(t, EditSeparator)
    ensures EditBranch(t, c) == Success(UpdateComment(FillTimestamp(ExtractNotice(t).value, iso) + "\n\n" + c.body))
  {
  }

  /** An edit's notice depends only on the reply and the date. */
  lemma EditNoticeOf(reply: string, c: Comment, notice: string)
    requires DecideEdited(Some(reply), Assistant, c) == Success(UpdateComment(notice + "\n\n" + c.body))
    ensures WantsEdit(Some(reply), Assistant, c)
    ensures c.isoUpdatedAt.Some? && Contains(reply, EditSeparator)
    ensures notice == FillTimestamp(ExtractNotice(reply).value, c.isoUpdatedAt.value)
  {
    assert WantsEdit(Some(reply), Assistant, c);
    var iso := c.isoUpdatedAt.value;
    EditBranchBody(reply, c, iso);
    var filled := FillTimestamp(ExtractNotice(reply).value, iso);
    CancelSuffix(filled + "\n\n", notice + "\n\n", c.body);
    CancelSuffix(filled, notice, "\n\n");
  }

  /** When the notice the assistant wrote lacks the marker, the edited body
      lacks it too, so the next `edited` event on that comment (the bot's own
      edit is one) edits it again with the same notice. */
  lemma ReEditWithoutMarker(reply: string, c: Comment, iso: string)
    requires WantsEdit(Some(reply), Assistant, c) && c.isoUpdatedAt == Some(iso)
    requires Contains(reply, EditSeparator)
    ensures var notice := FillTimestamp(ExtractNotice(reply).value, iso);
            var edited := c.(body := notice + "\n\n" + c.body);
            && DecideEdited(Some(reply), Assistant, c) == Success(UpdateComment(edited.body))
            && (!Contains(notice, EditMarker) ==>
                  DecideEdited(Some(reply), Assistant, edited) == Success(UpdateComment(notice + "\n\n" + edited.body)))
  {
    var notice := FillTimestamp(ExtractNotice(reply).value, iso);
    var edited := c.(body := notice + "\n\n" + c.body);
    EditBranchBody(reply, c, iso);
    if !Contains(notice, EditMarker) {
      MarkerOnOneLine();
      ContainsAcrossBlankLine(notice, c.body, EditMarker);
      WantsEditOtherBody(Some(reply), Assistant, c, edited);
      EditBranchBody(reply, edited, iso);
    }
  }

  lemma MarkerOnOneLine()
    ensures |EditMarker| > 0 && '\n' !in EditMarker
  {
  }

  /** Whether to edit depends on the comment only through the marker test. */
  lemma WantsEditOtherBody(reply: Option<string>, role: Role, c: Comment, c': Comment)
    requires WantsEdit(reply, role, c) && !Contains(c'.body, EditMarker)
    ensures WantsEdit(reply, role, c')
  {
  }

  /** A body whose notice line carries the marker is never edited again,
      whatever the reply; with `EditNoticeOf`, this covers every edit whose
      filled notice contains the marker. */
  lemma ReEditWithMarker(notice: string, c: Comment, reply': Option<string>, role': Role)
    requires Contains(notice, EditMarker)
    ensures DecideEdited(reply', role', c.(body := notice + "\n\n" + c.body)) == Success(NoAction)
  {
    ContainsAppend(notice, "\n\n", EditMarker);
    ContainsAppend(notice + "\n\n", c.body, EditMarker);
  }

  /** The usual thread, the assistant's reply first with its text in part 0
      and the bot's prompt second, yields exactly one comment. */
  lemma ReplyFirstThreadPosts(cfg: Config, issue: Issue, c: Comment, t: string, rest: seq<ContentPart>, prompt: seq<ContentPart>)
    requires Gate(cfg, issue)
    requires t != "" && !IsNoActionReply(t) && !Contains(t, NoActionTag)
    ensures var msgs := [ThreadMessage(Assistant, [TextPart(t)] + rest), ThreadMessage(User, prompt)];
            HandleCreated(cfg, issue, c, msgs) == Outcome([CreateComment(CreatedBody(t, c))], None)
  {
    var msgs := [ThreadMessage(Assistant, [TextPart(t)] + rest), ThreadMessage(User, prompt)];
    var decide := CreatedDecision(c);
    assert ReplyText(msgs[0], 0) == Some(t);
    RunTwo(msgs, decide, CreateComment(CreatedBody(t, c)));
  }

  /** A reply listed second is read from content part 1; a one-part reply
      there is `undefined`, so neither handler acts on it. */
  lemma ReplySecondThreadSilent(cfg: Config, issue: Issue, c: Comment, t: string, prompt: seq<ContentPart>)
    ensures var msgs := [ThreadMessage(User, prompt), ThreadMessage(Assistant, [TextPart(t)])];
            HandleCreated(cfg, issue, c, msgs) == Silent && HandleEdited(cfg, issue, c, msgs) == Silent
  {
    var msgs := [ThreadMessage(User, prompt), ThreadMessage(Assistant, [TextPart(t)])];
    assert ReplyText(msgs[1], 1) == None;
    if Gate(cfg, issue) {
      RunTwo(msgs, CreatedDecision(c), NoAction);
      RunTwo(msgs, EditedDecision(c), NoAction);
    }
  }
}

=== FILE: iso_date.dfy ===
/** The `{added_timestamp}` text of the edited-comment handler: an ISO-8601
    string as `Date.prototype.toISOString` writes it, cut at the fraction of
    a second, with the date/time separator turned into a space and ` UTC`
    appended. */
module IsoDate {
  import opened JsString

  predicate IsDigit(c: char) {
    '0' <= c <= '9'
  }

  /** `YYYY-MM-DDTHH:MM:SS.sssZ`, the form `toISOString` gives for the years 0000 to 9999. */
  predicate IsCanonicalIso(s: string) {
    && |s| == 24
    && s[4] == '-' && s[7] == '-' && s[10] == 'T'
    && s[13] == ':' && s[16] == ':' && s[19] == '.' && s[23] == 'Z'
    && forall k :: 0 <= k < 24 && k !in {4, 7, 10, 13, 16, 19, 23} ==> IsDigit(s[k])
  }

  /** `iso.split('.')[0].replace('T', ' ') + ' UTC'`. */
  function FormatIsoTimestamp(iso: string): (r: string)
    ensures |r| >= 4 && r[|r| - 4..] == " UTC"
  {
    ReplaceFirst(Split(iso, ".")[0], "T", " ") + " UTC"
  }

  /** The text before the first `.` of a canonical ISO string is its first 19 characters. */
  lemma CanonicalHead(s: string)
    requires IsCanonicalIso(s)
    ensures Split(s, ".")[0] == s[..19]
  {
    var head := s[..19];
    forall k | 0 <= k < 19
      ensures head[k] != '.'
    {
      if k !in {4, 7, 10, 13, 16} {
        assert IsDigit(s[k]);
      }
    }
    assert s == head + ['.'] + s[20..];
    IndexOfAfter(head, ".", s[20..]);
    SplitStep(s, ".", 19);
  }

  /** Replacing the `T` of the first 19 characters gives date, space, time. */
  lemma CanonicalSeparator(s: string)
    requires IsCanonicalIso(s)
    ensures ReplaceFirst(s[..19], "T", " ") == s[..10] + " " + s[11..19]
  {
    var date := s[..10];
    forall k | 0 <= k < 10
      ensures date[k] != 'T'
    {
      if k !in {4, 7} {
        assert IsDigit(s[k]);
      }
    }
    assert s[..19] == date + ['T'] + s[11..19];
    ReplaceFirstChar(date, 'T', s[11..19], " ");
  }

  /** On a canonical ISO string the result is the date, a space, the time to
      the second, and ` UTC`: `2024-01-24T13:15:24.000Z` gives
      `2024-01-24 13:15:24 UTC`. */
  lemma FormatCanonical(s: string)
    requires IsCanonicalIso(s)
    ensures FormatIsoTimestamp(s) == s[..10] + " " + s[11..19] + " UTC"
  {
    CanonicalHead(s);
    CanonicalSeparator(s);
  }

  /** A formatted canonical date holds no `$`, so `replace` inserts it literally. */
  lemma CanonicalDollarFree(s: string)
    requires IsCanonicalIso(s)
    ensures '$' !in s[..10] + " " + s[11..19] + " UTC"
  {
    var date := s[..10] + " " + s[11..19] + " UTC";
    forall k | 0 <= k < |date|
      ensures date[k] != '$'
    {
      if k < 10 {
        assert date[k] == s[k];
      } else if 11 <= k < 19 {
        assert date[k] == s[k];
      }
    }
  }

  /** The example GitHub timestamp from the handler's own comment:
      `2024-01-24T13:15:24.000Z` becomes `2024-01-24 13:15:24 UTC`. The date
      and time are parameters pinned by `requires` rather than literals
      written in place, so that the slices of the timestamp follow from the
      lengths of its parts instead of from unfolding a 24-character literal. */
  lemma FormatExample(date: string, time: string)
    requires date == "2024-01-24" && time == "13:15:24"
    ensures FormatIsoTimestamp(date + "T" + time + ".000Z") == date + " " + time + " UTC"
  {
    var s := date + "T" + time + ".000Z";
    ExampleIsCanonical(date, time);
    FormatCanonical(s);
    assert s[..10] == date;
    assert s[11..19] == time;
  }

  lemma ExampleIsCanonical(date: string, time: string)
    requires date == "2024-01-24" && time == "13:15:24"
    ensures IsCanonicalIso(date + "T" + time + ".000Z")
  {
  }
}

=== FILE: js_string.dfy ===
/** The part of JavaScript's `String.prototype` that the webhook handlers use,
    over `seq<char>`: `indexOf`, `includes`, `replace` with a string pattern
    (first occurrence only) and `split` with a string separator. A JavaScript
    string is a sequence of UTF-16 code units, while a `char` here is a
    Unicode scalar value: a character outside the Basic Multilingual Plane
    is one `char` but two units, and a lone surrogate has no `char`. Every
    pattern the handlers search for is ASCII, so positions shift but no
    match, split or replacement changes. */
module JsString {
  import opened Wrappers

  /** `pat` occurs in `s` starting at index `i`. */
  predicate OccursAt(s: string, pat: string, i: nat) {
    i + |pat| <= |s| && s[i..i + |pat|] == pat
  }

  /** The first index at or after `from` where `pat` occurs in `s`. */
  function IndexOfFrom(s: string, pat: string, from: nat): (r: Option<nat>)
    decreases |s| - from
    ensures r.Some? ==> from <= r.value && OccursAt(s, pat, r.value)
  {
    if |s| < from + |pat| then None
    else if s[from..from + |pat|] == pat then Some(from)
    else IndexOfFrom(s, pat, from + 1)
  }

  /** `IndexOfFrom` finds the first occurrence, and `None` means there is none. */
  lemma {:induction false} IndexOfFromFirst(s: string, pat: string, from: nat)
    decreases |s| - from
    ensures var r := IndexOfFrom(s, pat, from);
            && (r.Some? ==> forall j :: from <= j < r.value ==> !OccursAt(s, pat, j))
            && (r.None? ==> forall j :: from <= j ==> !OccursAt(s, pat, j))
  {
    if |s| < from + |pat| {
    } else if s[from..from + |pat|] == pat {
    } else {
      IndexOfFromFirst(s, pat, from + 1);
    }
  }

  /** `s.indexOf(pat)`, with `None` for JavaScript's -1. */
  function IndexOf(s: string, pat: string): (r: Option<nat>)
    ensures r.Some? ==> OccursAt(s, pat, r.value)
  {
    IndexOfFrom(s, pat, 0)
  }

  /** `indexOf` gives the first occurrence, and -1 only when there is none. */
  lemma IndexOfFirst(s: string, pat: string)
    ensures IndexOf(s, pat).Some? ==> forall j :: 0 <= j < IndexOf(s, pat).value ==> !OccursAt(s, pat, j)
    ensures IndexOf(s, pat).None? <==> forall j :: 0 <= j ==> !OccursAt(s, pat, j)
  {
    IndexOfFromFirst(s, pat, 0);
  }

  /** An occurrence with none before it is the one `indexOf` reports. */
  lemma IndexOfIs(s: string, pat: string, i: nat)
    requires OccursAt(s, pat, i)
    requires forall j :: 0 <= j < i ==> !OccursAt(s, pat, j)
    ensures IndexOf(s, pat) == Some(i)
  {
    IndexOfFirst(s, pat);
  }

  /** `s.includes(pat)`. */
  predicate Contains(s: string, pat: string)
  {
    IndexOf(s, pat).Some?
  }

  lemma ContainsIff(s: string, pat: string)
    ensures Contains(s, pat) <==> exists i :: OccursAt(s, pat, i)
  {
    IndexOfFirst(s, pat);
  }

  /** An occurrence at a known index witnesses `includes`. */
  lemma ContainsAt(s: string, pat: string, i: nat)
    requires OccursAt(s, pat, i)
    ensures Contains(s, pat)
  {
    IndexOfFirst(s, pat);
  }

  /** A string does not contain a pattern whose first character it lacks. */
  lemma NotContainsFirstChar(s: string, pat: string)
    requires |pat| > 0 && pat[0] !in s
    ensures !Contains(s, pat)
  {
    forall j: nat | j + |pat| <= |s|
      ensures !OccursAt(s, pat, j)
    {
      assert s[j] in s;
      assert s[j..j + |pat|][0] == s[j];
    }
    IndexOfFirst(s, pat);
  }

  /** For a one-character pattern, `includes` is sequence membership. */
  lemma ContainsChar(s: string, c: char)
    ensures Contains(s, [c]) <==> c in s
  {
    if c in s {
      var k :| 0 <= k < |s| && s[k] == c;
      assert s[k..k + 1] == [c];
      ContainsAt(s, [c], k);
    }
    if Contains(s, [c]) {
      var i := IndexOf(s, [c]).value;
      assert s[i] == s[i..i + 1][0];
    }
  }

  /** `includes` survives appending text. */
  lemma ContainsAppend(s: string, b: string, pat: string)
    requires Contains(s, pat)
    ensures Contains(s + b, pat)
  {
    var i := IndexOf(s, pat).value;
    assert (s + b)[i..i + |pat|] == s[i..i + |pat|];
    ContainsAt(s + b, pat, i);
  }

  /** An occurrence that ends inside the front part is one in the front part. */
  lemma OccursInFront(a: string, b: string, pat: string, i: nat)
    requires i + |pat| <= |a|
    ensures OccursAt(a + b, pat, i) == OccursAt(a, pat, i)
  {
    assert (a + b)[i..i + |pat|] == a[i..i + |pat|];
  }

  /** An occurrence that starts inside the back part is one in the back part. */
  lemma OccursInBack(a: string, b: string, pat: string, k: nat)
    ensures OccursAt(a + b, pat, |a| + k) == OccursAt(b, pat, k)
  {
    if k + |pat| <= |b| {
      assert (a + b)[|a| + k..|a| + k + |pat|] == b[k..k + |pat|];
    }
  }

  /** An occurrence overlapping the separator would put a separator character
      into the pattern. */
  lemma NoOccurrenceOnSeparator(a: string, m: string, b: string, pat: string, i: nat)
    requires |pat| > 0 && |m| > 0 && forall x :: x in m ==> x !in pat
    requires |a| < i + |pat| && i < |a| + |m|
    ensures !OccursAt(a + m + b, pat, i)
  {
    var s := a + m + b;
    var p := if i <= |a| then |a| else i;
    assert s[p] == m[p - |a|];
    if i + |pat| <= |s| {
      var w := s[i..i + |pat|];
      assert w[p - i] == s[p];
      assert w[p - i] !in pat;
    }
  }

  /** A pattern sharing no character with a non-empty separator cannot
      straddle it. */
  lemma NoOccurrenceAcross(a: string, m: string, b: string, pat: string)
    requires |pat| > 0 && |m| > 0 && forall x :: x in m ==> x !in pat
    requires !Contains(a, pat) && !Contains(b, pat)
    ensures !Contains(a + m + b, pat)
  {
    var s := a + m + b;
    IndexOfFirst(a, pat);
    IndexOfFirst(b, pat);
    IndexOfFirst(s, pat);
    forall i: nat | i + |pat| <= |s|
      ensures !OccursAt(s, pat, i)
    {
      if i + |pat| <= |a| {
        OccursInFront(a + m, b, pat, i);
        OccursInFront(a, m, pat, i);
        assert !OccursAt(a, pat, i);
      } else if i >= |a| + |m| {
        OccursInBack(a + m, b, pat, i - |a| - |m|);
        assert !OccursAt(b, pat, i - |a| - |m|);
      } else {
        NoOccurrenceOnSeparator(a, m, b, pat, i);
      }
    }
  }

  /** A pattern without a line feed cannot straddle a blank-line join. */
  lemma ContainsAcrossBlankLine(a: string, b: string, pat: string)
    requires |pat| > 0 && '\n' !in pat
    requires !Contains(a, pat) && !Contains(b, pat)
    ensures !Contains(a + "\n\n" + b, pat)
  {
    NoOccurrenceAcross(a, "\n\n", b, pat);
  }

  /** The replacement text `replace` inserts for one match of a string
      pattern: ECMAScript's GetSubstitution with no capture groups, where
      `$$`, `$&`, `` $` `` and `$'` are special and every other `$` (a `$n`
      with no such group, a `$<` with no named groups, a lone `$`) is literal. */
  function Substitution(rep: string, matched: string, before: string, after: string): (r: string)
    decreases |rep|
    ensures '$' !in rep ==> r == rep
  {
    if |rep| == 0 then ""
    else if rep[0] == '$' && |rep| >= 2 && rep[1] == '$' then "$" + Substitution(rep[2..], matched, before, after)
    else if rep[0] == '$' && |rep| >= 2 && rep[1] == '&' then matched + Substitution(rep[2..], matched, before, after)
    else if rep[0] == '$' && |rep| >= 2 && rep[1] == '`' then before + Substitution(rep[2..], matched, before, after)
    else if rep[0] == '$' && |rep| >= 2 && rep[1] == '\'' then after + Substitution(rep[2..], matched, before, after)
    else [rep[0]] + Substitution(rep[1..], matched, before, after)
  }

  /** The special replacement patterns: `$$` is a dollar sign, `$&` the
      matched text, `` $` `` the text before the match, `$'` the text after
      it; a `$1` names no group and stays as written. */
  lemma SubstitutionPatterns(matched: string, before: string, after: string)
    ensures Substitution("$$", matched, before, after) == "$"
    ensures Substitution("$&", matched, before, after) == matched
    ensures Substitution("$`", matched, before, after) == before
    ensures Substitution("$'", matched, before, after) == after
    ensures Substitution("$1", matched, before, after) == "$1"
  {
    assert "$$"[2..] == "" && "$&"[2..] == "" && "$`"[2..] == "" && "$'"[2..] == "";
    assert "$1"[1..] == "1" && "1"[1..] == "";
    assert matched + "" == matched && before + "" == before && after + "" == after;
  }

  /** `s.replace(pat, rep)` for a string `pat`: only the first occurrence is replaced. */
  function ReplaceFirst(s: string, pat: string, rep: string): (r: string)
    ensures !Contains(s, pat) ==> r == s
  {
    match IndexOf(s, pat)
    case None => s
    case Some(i) => s[..i] + Substitution(rep, pat, s[..i], s[i + |pat|..]) + s[i + |pat|..]
  }

  /** Only the first occurrence changes: whatever follows it, further
      occurrences included, is kept as it is. */
  lemma ReplaceFirstAt(a: string, pat: string, b: string, rep: string)
    requires IndexOf(a + pat + b, pat) == Some(|a|)
    ensures ReplaceFirst(a + pat + b, pat, rep) == a + Substitution(rep, pat, a, b) + b
  {
    var s := a + pat + b;
    assert s[..|a|] == a;
    assert s[|a| + |pat|..] == b;
  }

  /** A pattern occurs first right after a prefix that lacks its first character. */
  lemma IndexOfAfter(a: string, pat: string, b: string)
    requires |pat| > 0 && pat[0] !in a
    ensures IndexOf(a + pat + b, pat) == Some(|a|)
  {
    var s := a + pat + b;
    assert s[|a|..|a| + |pat|] == pat;
    ContainsAt(s, pat, |a|);
    forall j: nat | j < |a|
      ensures !OccursAt(s, pat, j)
    {
      if j + |pat| <= |s| {
        assert s[j..j + |pat|][0] == a[j];
      }
      assert a[j] in a;
    }
    IndexOfFirst(s, pat);
    var i := IndexOf(s, pat).value;
    assert !(i < |a|);
    assert OccursAt(s, pat, |a|);
  }

  /** With a `$`-free replacement, `replace` swaps the occurrence right after
      a prefix lacking the pattern's first character for the replacement and
      keeps everything after it, later occurrences included. */
  lemma ReplaceFirstAfter(a: string, pat: string, b: string, rep: string)
    requires |pat| > 0 && pat[0] !in a && '$' !in rep
    ensures ReplaceFirst(a + pat + b, pat, rep) == a + rep + b
  {
    IndexOfAfter(a, pat, b);
    ReplaceFirstAt(a, pat, b, rep);
  }

  /** A `$`-free replacement at the first occurrence is inserted literally. */
  lemma ReplaceFirstLiteralAt(a: string, pat: string, b: string, rep: string)
    requires IndexOf(a + pat + b, pat) == Some(|a|) && '$' !in rep
    ensures ReplaceFirst(a + pat + b, pat, rep) == a + rep + b
  {
    ReplaceFirstAt(a, pat, b, rep);
  }

  /** `ReplaceFirstAfter` with the text after the match split in three parts. */
  lemma ReplaceFirstBefore(a: string, pat: string, b: string, q: string, d: string, rep: string)
    requires |pat| > 0 && pat[0] !in a && '$' !in rep
    ensures ReplaceFirst(a + pat + b + q + d, pat, rep) == (a + rep + b) + q + d
  {
    var rest := b + q + d;
    assert a + pat + b + q + d == a + pat + rest;
    ReplaceFirstAfter(a, pat, rest, rep);
    assert a + rep + rest == (a + rep + b) + q + d;
  }

  /** A character that occurs has a first occurrence. */
  lemma {:induction false} FirstOccurrence(s: string, c: char)
    requires c in s
    ensures exists i :: 0 <= i < |s| && s[i] == c && c !in s[..i]
  {
    if s[0] == c {
      assert s[..0] == [];
    } else {
      FirstOccurrence(s[1..], c);
      var i :| 0 <= i < |s[1..]| && s[1..][i] == c && c !in s[1..][..i];
      assert s[..i + 1] == [s[0]] + s[1..][..i];
      assert s[i + 1] == c;
    }
  }

  /** The one-character case of `ReplaceFirstAfter`. */
  lemma ReplaceFirstChar(a: string, c: char, b: string, rep: string)
    requires c !in a && '$' !in rep
    ensures ReplaceFirst(a + [c] + b, [c], rep) == a + rep + b
  {
    ReplaceFirstAfter(a, [c], b, rep);
  }

  /** Two strings with the same ending agree on what precedes it. */
  lemma CancelSuffix(x: string, y: string, z: string)
    requires x + z == y + z
    ensures x == y
  {
    assert |x| == |y|;
    assert x == (x + z)[..|x|];
    assert y == (y + z)[..|y|];
  }

  predicate EndsWith(s: string, suffix: string) {
    |suffix| <= |s| && s[|s| - |suffix|..] == suffix
  }

  lemma EndsWithConcat(x: string, y: string)
    ensures EndsWith(x + y, y)
  {
    assert (x + y)[|x|..] == y;
  }

  /** Each character of `s` as a one-character string: `s.split("")`. */
  function Chars(s: string): (parts: seq<string>)
    ensures |parts| == |s|
    ensures forall k :: 0 <= k < |s| ==> parts[k] == [s[k]]
  {
    if |s| == 0 then [] else [[s[0]]] + Chars(s[1..])
  }

  /** `s.split(sep)`. A non-empty separator cuts at each occurrence found
      left to right; an empty one yields the single characters. */
  function Split(s: string, sep: string): (parts: seq<string>)
    decreases |s|
    ensures |sep| > 0 ==> |parts| >= 1
  {
    if |sep| == 0 then Chars(s)
    else if IndexOf(s, sep).None? then [s]
    else
      var i := IndexOf(s, sep).value;
      [s[..i]] + Split(s[i + |sep|..], sep)
  }

  /** `parts.join(sep)`, the inverse of `Split`. */
  function Join(parts: seq<string>, sep: string): string
  {
    if |parts| == 0 then ""
    else if |parts| == 1 then parts[0]
    else parts[0] + sep + Join(parts[1..], sep)
  }

  lemma {:induction false} JoinChars(s: string)
    ensures Join(Chars(s), "") == s
    decreases |s|
  {
    if |s| > 1 {
      var tail := Chars(s[1..]);
      assert Chars(s) == [[s[0]]] + tail;
      JoinStep([s[0]], tail, "");
      JoinChars(s[1..]);
      assert s == [s[0]] + "" + s[1..];
    }
  }

  /** One step of `Split`: the piece before the first separator, then the rest split. */
  lemma SplitStep(s: string, sep: string, i: nat)
    requires |sep| > 0 && IndexOf(s, sep) == Some(i)
    ensures Split(s, sep) == [s[..i]] + Split(s[i + |sep|..], sep)
    ensures s == s[..i] + sep + s[i + |sep|..]
  {
    OccurrenceSplits(s, sep, i);
  }

  /** A string is the text before an occurrence, the occurrence, and the text after it. */
  lemma OccurrenceSplits(s: string, pat: string, i: nat)
    requires OccursAt(s, pat, i)
    ensures s == s[..i] + pat + s[i + |pat|..]
  {
    assert s == s[..i] + s[i..i + |pat|] + s[i + |pat|..];
  }

  lemma JoinStep(x: string, tail: seq<string>, sep: string)
    requires |tail| >= 1
    ensures Join([x] + tail, sep) == x + sep + Join(tail, sep)
  {
    assert ([x] + tail)[1..] == tail;
  }

  /** Splitting and joining on the same separator gives back the string. */
  lemma {:induction false} SplitJoin(s: string, sep: string)
    ensures Join(Split(s, sep), sep) == s
    decreases |s|
  {
    if |sep| == 0 {
      JoinChars(s);
    } else if IndexOf(s, sep).Some? {
      var i := IndexOf(s, sep).value;
      var rest := s[i + |sep|..];
      SplitStep(s, sep, i);
      SplitJoin(rest, sep);
      JoinStep(s[..i], Split(rest, sep), sep);
    }
  }

  /** The text before the first occurrence of `pat` does not contain it. */
  lemma PrefixBeforeFirstLacks(s: string, pat: string, i: nat)
    requires |pat| > 0 && IndexOf(s, pat) == Some(i)
    ensures !Contains(s[..i], pat)
  {
    IndexOfFirst(s, pat);
    IndexOfFirst(s[..i], pat);
    forall j: nat | j + |pat| <= i
      ensures !OccursAt(s[..i], pat, j)
    {
      assert s[..i][j..j + |pat|] == s[j..j + |pat|];
      assert !OccursAt(s, pat, j);
    }
  }

  /** No piece of a split on a non-empty separator contains the separator.
      With `SplitJoin` this pins `Split` down only for a separator that cannot
      overlap itself (`"aaa"` splits on `"aa"` as `["", "a"]`, but `["a", ""]`
      joins back too); `SplitUnique` pins it down for every separator. */
  lemma {:induction false} SplitPiecesLackSeparator(s: string, sep: string)
    requires |sep| > 0
    ensures forall k :: 0 <= k < |Split(s, sep)| ==> !Contains(Split(s, sep)[k], sep)
    decreases |s|
  {
    match IndexOf(s, sep)
    case None =>
    case Some(i) =>
      var rest := s[i + |sep|..];
      SplitPiecesLackSeparator(rest, sep);
      PrefixBeforeFirstLacks(s, sep, i);
      var parts := Split(s, sep);
      assert parts == [s[..i]] + Split(rest, sep);
      forall k | 0 <= k < |parts|
        ensures !Contains(parts[k], sep)
      {
        if k > 0 {
          assert parts[k] == Split(rest, sep)[k - 1];
        }
      }
  }
  /** Every cut but the last is made at the first occurrence of the
      separator in what remains of the string. */
  predicate CutsAtFirst(parts: seq<string>, sep: string)
    decreases |parts|
  {
    || |parts| <= 1
    || (&& IndexOf(parts[0] + sep + Join(parts[1..], sep), sep) == Some(|parts[0]|)
        && CutsAtFirst(parts[1..], sep))
  }

  /** `Split` cuts at first occurrences. */
  lemma {:induction false} SplitCutsAtFirst(s: string, sep: string)
    requires |sep| > 0
    ensures CutsAtFirst(Split(s, sep), sep)
    decreases |s|
  {
    match IndexOf(s, sep)
    case None =>
    case Some(i) =>
      var rest := s[i + |sep|..];
      var tail := Split(rest, sep);
      var parts := Split(s, sep);
      SplitCutsAtFirst(rest, sep);
      SplitJoin(rest, sep);
      SplitStep(s, sep, i);
      assert parts[1..] == tail;
      assert parts[0] + sep + Join(parts[1..], sep) == s;
  }

  /** A list of pieces that joins back to `s`, whose last piece lacks the
      separator and whose cuts are at first occurrences, is `s.split(sep)`:
      with `SplitJoin`, `SplitPiecesLackSeparator` and `SplitCutsAtFirst`
      this characterises `Split` completely. */
  lemma {:induction false} SplitUnique(s: string, sep: string, parts: seq<string>)
    requires |sep| > 0 && |parts| >= 1 && Join(parts, sep) == s
    requires !Contains(parts[|parts| - 1], sep)
    requires CutsAtFirst(parts, sep)
    ensures Split(s, sep) == parts
    decreases |parts|
  {
    if |parts| > 1 {
      var tail := parts[1..];
      var i := |parts[0]|;
      assert parts == [parts[0]] + tail;
      JoinStep(parts[0], tail, sep);
      assert IndexOf(s, sep) == Some(i);
      assert s[..i] == parts[0];
      assert s[i + |sep|..] == Join(tail, sep);
      SplitUnique(Join(tail, sep), sep, tail);
    }
  }

  /** With a separator that overlaps itself the cut falls at the first
      occurrence: `"aaa".split("aa")` is `["", "a"]`, not `["a", ""]`. */
  lemma SplitOverlapping()
    ensures Split("aaa", "aa") == ["", "a"]
    ensures Join(["a", ""], "aa") == "aaa" && !CutsAtFirst(["a", ""], "aa")
  {
    assert OccursAt("aaa", "aa", 0);
    IndexOfIs("aaa", "aa", 0);
    assert IndexOf("a", "aa").None?;
  }

  /** `s.split(sep)[1]`, which is `undefined` when the split has one piece. */
  function SplitSecond(s: string, sep: string): (r: Option<string>)
    ensures |sep| > 0 ==> (r.Some? <==> Contains(s, sep))
    ensures |sep| == 0 ==> (r.Some? <==> |s| >= 2)
  {
    var parts := Split(s, sep);
    if |parts| < 2 then None else Some(parts[1])
  }

  /** The second piece is the text between the first occurrence of the
      separator and the next one (or the end), and holds no separator. */
  lemma SplitSecondBetween(s: string, sep: string, i: nat)
    requires |sep| > 0 && IndexOf(s, sep) == Some(i)
    ensures SplitSecond(s, sep).Some?
    ensures var v := SplitSecond(s, sep).value;
            var rest := s[i + |sep|..];
            && v <= rest
            && !Contains(v, sep)
            && (|v| == |rest| || OccursAt(rest, sep, |v|))
  {
    var rest := s[i + |sep|..];
    var parts := Split(s, sep);
    assert parts == [s[..i]] + Split(rest, sep);
    var v := parts[1];
    assert v == Split(rest, sep)[0];
    match IndexOf(rest, sep)
    case None =>
    case Some(j) =>
      PrefixBeforeFirstLacks(rest, sep, j);
  }
}

=== FILE: webhook.dfy ===
/** What both wirings of the bot share: the fields of the webhook payload and
    of the assistant's thread that the decisions read, the constants they
    compare against, the action a decision takes, and the walk over the
    thread's messages that turns per-message decisions into GitHub writes. */
module Webhook {
  import opened Wrappers
  import opened JsString

  /** Who wrote a thread message: the prompt the bot sent, or the assistant's reply. */
  datatype Role = User | Assistant

  /** One content part of a thread message; only a text part has `text.value`. */
  datatype ContentPart = TextPart(value: string) | ImageFilePart

  datatype ThreadMessage = ThreadMessage(role: Role, content: seq<ContentPart>)

  datatype Issue = Issue(state: string, labels: seq<string>)

  /** The triggering comment. `isoUpdatedAt` is `new Date(updated_at).toISOString()`,
      or `None` when the timestamp does not parse and that call throws. */
  datatype Comment = Comment(body: string, login: string, htmlUrl: string, isoUpdatedAt: Option<string>)

  /** The assistant id read from the environment, if any. */
  datatype Config = Config(assistantId: Option<string>)

  /** The GitHub write a decision asks for. */
  datatype Action = NoAction | CreateComment(body: string) | UpdateComment(body: string)

  /** The exception a message callback can throw: a `TypeError` from calling
      `member` on `undefined`, or the `RangeError` of an invalid date. */
  datatype Fault = TypeError(member: string) | RangeError

  const NoActionReply := "NO_ACTION"
  const QuotedNoActionReply := "\"NO_ACTION\""
  const NoActionTag := "[NO_ACTION]"
  const EditTag := "[EDIT_COMMENT]"
  const EditSeparator := "[EDIT_COMMENT] "
  const UserPlaceholder := "{user}"
  const LinkPlaceholder := "{proposalLink}"
  const TimestampPlaceholder := "{added_timestamp}"
  /** The text the bot looks for to tell that it already edited a comment. */
  const EditMarker := "Edited by **proposal-police**"

  /** `!process.env.OPENAI_ASSISTANT_ID` is false: the id is set and not empty. */
  predicate Configured(cfg: Config) {
    cfg.assistantId.Some? && |cfg.assistantId.value| > 0
  }

  /** `message.content?.[index]?.text?.value`: the handlers read the content
      part at the message's own position in the thread, not part 0. */
  function ReplyText(m: ThreadMessage, index: nat): (r: Option<string>)
    ensures r.Some? <==> index < |m.content| && m.content[index].TextPart?
    ensures r.Some? ==> r.value == m.content[index].value
  {
    if index < |m.content| && m.content[index].TextPart? then Some(m.content[index].value) else None
  }

  /** `reply.replace('{user}', '@' + login).replace('{proposalLink}', html_url)`. */
  function Personalise(reply: string, c: Comment): string
  {
    ReplaceFirst(ReplaceFirst(reply, UserPlaceholder, "@" + c.login), LinkPlaceholder, c.htmlUrl)
  }

  /** The `{user}` step of `PersonaliseFills`. */
  lemma UserFilled(a: string, b: string, d: string, c: Comment)
    requires '{' !in a && '$' !in c.login
    ensures ReplaceFirst(a + UserPlaceholder + b + LinkPlaceholder + d, UserPlaceholder, "@" + c.login)
            == (a + "@" + c.login + b) + LinkPlaceholder + d
  {
    var login := "@" + c.login;
    ReplaceFirstBefore(a, UserPlaceholder, b, LinkPlaceholder, d, login);
    assert a + login + b == a + "@" + c.login + b;
  }

  /** `{user}` becomes `@login` and `{proposalLink}` the comment's URL, when
      the placeholders come in that order, nothing before them could be
      mistaken for one and the substituted texts hold no `$` pattern. */
  lemma PersonaliseFills(a: string, b: string, d: string, c: Comment)
    requires '{' !in a && '{' !in b && '{' !in c.login
    requires '$' !in c.login && '$' !in c.htmlUrl
    ensures Personalise(a + UserPlaceholder + b + LinkPlaceholder + d, c) == a + "@" + c.login + b + c.htmlUrl + d
  {
    UserFilled(a, b, d, c);
    var front := a + "@" + c.login + b;
    assert '{' !in front;
    ReplaceFirstAfter(front, LinkPlaceholder, d, c.htmlUrl);
  }

  /** In `{proposalLink}...{user}` order, `{user}` is still found at its own
      place: the only `{` before it opens `{proposalLink}`. */
  lemma UserAfterLink(a: string, b: string, d: string)
    requires '{' !in a && '{' !in b
    ensures IndexOf(a + LinkPlaceholder + b + UserPlaceholder + d, UserPlaceholder)
              == Some(|a| + |LinkPlaceholder| + |b|)
  {
    var s := a + LinkPlaceholder + b + UserPlaceholder + d;
    var i := |a| + |LinkPlaceholder| + |b|;
    assert s[i..i + |UserPlaceholder|] == UserPlaceholder;
    forall j | 0 <= j < i
      ensures !OccursAt(s, UserPlaceholder, j)
    {
      if j < |a| {
        assert s[j] == a[j];
        assert s[j..j + |UserPlaceholder|][0] == s[j];
      } else if j == |a| {
        assert s[j + 1] == 'p';
        assert s[j..j + |UserPlaceholder|][1] == s[j + 1];
      } else if j < |a| + |LinkPlaceholder| {
        assert s[j] == LinkPlaceholder[j - |a|];
        assert s[j..j + |UserPlaceholder|][0] == s[j];
      } else {
        assert s[j] == b[j - |a| - |LinkPlaceholder|];
        assert s[j..j + |UserPlaceholder|][0] == s[j];
      }
    }
    IndexOfIs(s, UserPlaceholder, i);
  }

  /** The `{user}` step of `PersonaliseFillsReversed`. */
  lemma UserFilledAfterLink(a: string, b: string, d: string, login: string)
    requires '{' !in a && '{' !in b && '$' !in login
    ensures ReplaceFirst(a + LinkPlaceholder + b + UserPlaceholder + d, UserPlaceholder, "@" + login)
              == a + LinkPlaceholder + (b + "@" + login + d)
  {
    var front := a + LinkPlaceholder + b;
    UserAfterLink(a, b, d);
    ReplaceFirstLiteralAt(front, UserPlaceholder, d, "@" + login);
  }

  /** The placeholders may come in either order: with `{proposalLink}` first,
      both are filled just the same. */
  lemma PersonaliseFillsReversed(a: string, b: string, d: string, c: Comment)
    requires '{' !in a && '{' !in b
    requires '$' !in c.login && '$' !in c.htmlUrl
    ensures Personalise(a + LinkPlaceholder + b + UserPlaceholder + d, c) == a + c.htmlUrl + b + "@" + c.login + d
  {
    var rest := b + "@" + c.login + d;
    UserFilledAfterLink(a, b, d, c.login);
    ReplaceFirstAfter(a, LinkPlaceholder, rest, c.htmlUrl);
    assert a + c.htmlUrl + rest == a + c.htmlUrl + b + "@" + c.login + d;
  }

  /** `s.replace('"', '')`: drops the first double quote only. */
  function DropFirstQuote(s: string): string
  {
    ReplaceFirst(s, "\"", "")
  }

  /** Dropping the first quote keeps the text before it and after it, later
      quotes included, and leaves a quote-free string as it is. */
  lemma DropFirstQuoteSplits(s: string)
    ensures '"' !in s ==> DropFirstQuote(s) == s
    ensures '"' in s ==> exists i :: 0 <= i < |s| && s[i] == '"' && '"' !in s[..i] && DropFirstQuote(s) == s[..i] + s[i + 1..]
  {
    if '"' in s {
      FirstOccurrence(s, '"');
      var i :| 0 <= i < |s| && s[i] == '"' && '"' !in s[..i];
      assert s == s[..i] + ['"'] + s[i + 1..];
      ReplaceFirstChar(s[..i], '"', s[i + 1..], "");
      assert s[..i] + "" + s[i + 1..] == s[..i] + s[i + 1..];
    } else {
      ContainsChar(s, '"');
    }
  }

  /** The decision a wiring takes for one message, from its reply text and role. */
  type Decide = (Option<string>, Role) -> Result<Action, Fault>

  /** The GitHub writes made while walking the thread, and the exception
      that stopped the walk, if one did. */
  datatype Outcome = Outcome(writes: seq<Action>, fault: Option<Fault>)

  const Silent := Outcome([], None)

  /** The decision for message `j`, which reads content part `j`. */
  function DecisionAt(msgs: seq<ThreadMessage>, decide: Decide, j: nat): Result<Action, Fault>
    requires j < |msgs|
  {
    decide(ReplyText(msgs[j], j), msgs[j].role)
  }

  /** `threadMessages.data.forEach((message, index) => ...)` from message
      `from` on: each write is made in order, and an exception ends the walk. */
  function RunFrom(msgs: seq<ThreadMessage>, decide: Decide, from: nat): (r: Outcome)
    requires from <= |msgs|
    decreases |msgs| - from
    ensures |r.writes| <= |msgs| - from
    ensures forall k :: 0 <= k < |r.writes| ==>
              && !r.writes[k].NoAction?
              && exists j :: from <= j < |msgs| && DecisionAt(msgs, decide, j) == Success(r.writes[k])
    ensures r.fault.Some? ==> exists j :: from <= j < |msgs| && DecisionAt(msgs, decide, j) == Failure(r.fault.value)
    ensures (forall j :: from <= j < |msgs| ==> DecisionAt(msgs, decide, j) == Success(NoAction)) ==> r == Silent
  {
    if from == |msgs| then Silent
    else
      match DecisionAt(msgs, decide, from)
      case Failure(e) => Outcome([], Some(e))
      case Success(NoAction) => RunFrom(msgs, decide, from + 1)
      case Success(a) =>
        var rest := RunFrom(msgs, decide, from + 1);
        Outcome([a] + rest.writes, rest.fault)
  }

  /** The whole thread, from its first message. */
  function Run(msgs: seq<ThreadMessage>, decide: Decide): (r: Outcome)
    ensures |r.writes| <= |msgs|
    ensures forall k :: 0 <= k < |r.writes| ==>
              && !r.writes[k].NoAction?
              && exists j :: 0 <= j < |msgs| && DecisionAt(msgs, decide, j) == Success(r.writes[k])
    ensures r.fault.Some? ==> exists j :: 0 <= j < |msgs| && DecisionAt(msgs, decide, j) == Failure(r.fault.value)
    ensures (forall j :: 0 <= j < |msgs| ==> DecisionAt(msgs, decide, j) == Success(NoAction)) ==> r == Silent
  {
    RunFrom(msgs, decide, 0)
  }

  /** The first message at or after `from` whose callback throws, or `|msgs|`
      when none does. */
  function FirstFault(msgs: seq<ThreadMessage>, decide: Decide, from: nat): (k: nat)
    requires from <= |msgs|
    decreases |msgs| - from
    ensures from <= k <= |msgs|
    ensures forall j :: from <= j < k ==> DecisionAt(msgs, decide, j).Success?
    ensures k < |msgs| ==> DecisionAt(msgs, decide, k).Failure?
  {
    if from == |msgs| then from
    else if DecisionAt(msgs, decide, from).Failure? then from
    else FirstFault(msgs, decide, from + 1)
  }

  /** The writes asked for by messages `from` up to `until - 1`, in thread order:
      one for each message whose decision succeeds with an action. */
  function Writes(msgs: seq<ThreadMessage>, decide: Decide, from: nat, until: nat): (w: seq<Action>)
    requires from <= until <= |msgs|
    decreases until
    ensures |w| <= until - from
  {
    if until == from then []
    else
      var d := DecisionAt(msgs, decide, until - 1);
      Writes(msgs, decide, from, until - 1) + (if d.Success? && !d.value.NoAction? then [d.value] else [])
  }

  /** `Writes` read from the front: the first message's write, then the rest. */
  lemma {:induction false} WritesFront(msgs: seq<ThreadMessage>, decide: Decide, from: nat, until: nat)
    requires from < until <= |msgs|
    decreases until
    ensures var d := DecisionAt(msgs, decide, from);
            Writes(msgs, decide, from, until)
              == (if d.Success? && !d.value.NoAction? then [d.value] else []) + Writes(msgs, decide, from + 1, until)
  {
    if until > from + 1 {
      WritesFront(msgs, decide, from, until - 1);
    }
  }

  /** Every message in the range whose decision acts has its write among `Writes`. */
  lemma {:induction false} WritesIncludes(msgs: seq<ThreadMessage>, decide: Decide, from: nat, until: nat, j: nat)
    requires from <= j < until <= |msgs|
    requires DecisionAt(msgs, decide, j).Success? && !DecisionAt(msgs, decide, j).value.NoAction?
    decreases until
    ensures DecisionAt(msgs, decide, j).value in Writes(msgs, decide, from, until)
  {
    if j < until - 1 {
      WritesIncludes(msgs, decide, from, until - 1, j);
    }
  }

  /** One step of the walk past a message whose callback returns. */
  lemma RunFromStep(msgs: seq<ThreadMessage>, decide: Decide, from: nat)
    requires from < |msgs| && DecisionAt(msgs, decide, from).Success?
    ensures var d := DecisionAt(msgs, decide, from);
            var rest := RunFrom(msgs, decide, from + 1);
            && RunFrom(msgs, decide, from)
                 == Outcome((if d.Success? && !d.value.NoAction? then [d.value] else []) + rest.writes, rest.fault)
            && FirstFault(msgs, decide, from) == FirstFault(msgs, decide, from + 1)
  {
    var rest := RunFrom(msgs, decide, from + 1);
    assert [] + rest.writes == rest.writes;
    assert FirstFault(msgs, decide, from) == FirstFault(msgs, decide, from + 1);
  }

  /** The walk stops at the end of the thread or at a callback that throws. */
  lemma RunFromStop(msgs: seq<ThreadMessage>, decide: Decide, from: nat)
    requires from == |msgs| || (from < |msgs| && DecisionAt(msgs, decide, from).Failure?)
    ensures FirstFault(msgs, decide, from) == from
    ensures RunFrom(msgs, decide, from)
              == Outcome([], if from < |msgs| then Some(DecisionAt(msgs, decide, from).error) else None)
  {
  }

  /** The inductive step of `RunFromExact`. */
  lemma RunFromExactStep(msgs: seq<ThreadMessage>, decide: Decide, from: nat)
    requires from < |msgs| && DecisionAt(msgs, decide, from).Success?
    requires var k := FirstFault(msgs, decide, from + 1);
             RunFrom(msgs, decide, from + 1)
               == Outcome(Writes(msgs, decide, from + 1, k),
                          if k < |msgs| then Some(DecisionAt(msgs, decide, k).error) else None)
    ensures var k := FirstFault(msgs, decide, from);
            RunFrom(msgs, decide, from)
              == Outcome(Writes(msgs, decide, from, k),
                         if k < |msgs| then Some(DecisionAt(msgs, decide, k).error) else None)
  {
    RunFromStep(msgs, decide, from);
    WritesFront(msgs, decide, from, FirstFault(msgs, decide, from + 1));
  }

  /** The walk exactly: it makes, in order, the write of every acting message
      before the first one that throws, and ends with that exception, if any. */
  lemma {:induction false} RunFromExact(msgs: seq<ThreadMessage>, decide: Decide, from: nat)
    requires from <= |msgs|
    decreases |msgs| - from
    ensures var k := FirstFault(msgs, decide, from);
            RunFrom(msgs, decide, from)
              == Outcome(Writes(msgs, decide, from, k),
                         if k < |msgs| then Some(DecisionAt(msgs, decide, k).error) else None)
  {
    if from < |msgs| && DecisionAt(msgs, decide, from).Success? {
      RunFromExact(msgs, decide, from + 1);
      RunFromExactStep(msgs, decide, from);
    } else {
      RunFromStop(msgs, decide, from);
    }
  }


  /** A thread in which no callback throws is walked to its end. */
  lemma NoFaultRunsToEnd(msgs: seq<ThreadMessage>, decide: Decide)
    requires forall j :: 0 <= j < |msgs| ==> DecisionAt(msgs, decide, j).Success?
    ensures FirstFault(msgs, decide, 0) == |msgs|
  {
  }

  /** `RunFromExact` for the whole thread. */
  lemma RunExact(msgs: seq<ThreadMessage>, decide: Decide)
    ensures var k := FirstFault(msgs, decide, 0);
            Run(msgs, decide)
              == Outcome(Writes(msgs, decide, 0, k), if k < |msgs| then Some(DecisionAt(msgs, decide, k).error) else None)
  {
    RunFromExact(msgs, decide, 0);
  }

  /** Message `j` is decided on content part `j`: on its text when that part
      is a text part, and on `undefined` otherwise, whatever part 0 holds. */
  lemma DecisionReadsOwnPart(msgs: seq<ThreadMessage>, decide: Decide, j: nat)
    requires j < |msgs|
    ensures j < |msgs[j].content| && msgs[j].content[j].TextPart? ==>
              DecisionAt(msgs, decide, j) == decide(Some(msgs[j].content[j].value), msgs[j].role)
    ensures j >= |msgs[j].content| || !msgs[j].content[j].TextPart? ==>
              DecisionAt(msgs, decide, j) == decide(None, msgs[j].role)
  {
  }

  /** A two-message thread whose first message succeeds and whose second is
      skipped makes exactly the first message's write, if it is one. */
  lemma RunTwo(msgs: seq<ThreadMessage>, decide: Decide, a: Action)
    requires |msgs| == 2
    requires DecisionAt(msgs, decide, 0) == Success(a)
    requires DecisionAt(msgs, decide, 1) == Success(NoAction)
    ensures Run(msgs, decide) == Outcome(if a.NoAction? then [] else [a], None)
  {
    assert RunFrom(msgs, decide, 1) == Silent;
  }
}

=== FILE: wrappers.dfy ===
/** The two wrappers the model needs: `Option` for a JavaScript value that may
    be `undefined`, and `Result` for a callback that either returns or throws. */
module Wrappers {

  datatype Option<+T> = None | Some(value: T)

  datatype Result<+R, +E> = Success(value: R) | Failure(error: E)
}
